=== FILE: README.md ===
# epoxycam sensor and recording model

A Dafny model of the two scripts on a Raspberry Pi underwater camera rig.

- `annotate_sensors.py` polls an ADS1115 analog-to-digital converter and a DS18B20 one-wire
  temperature probe. It turns the battery channel into volts and a charge percentage, and
  the pressure channel into psi and then depth in seawater. It also reads the probe's
  `w1_slave` file.
- `app.py` is the camera web server. `/start` and `/stop` toggle recording and the overlay
  thread's stop event. `/download` serves the recorded file. Its `read_temperature` parses the
  same probe file, with different rules.

Modules, one per concern:

| file | module | what it holds |
|---|---|---|
| `wrappers.dfy` | `Wrappers` | `Option` (Python's `None`, and `str.find`'s `-1`) |
| `text.dfy` | `Text` | `str.strip()`, the decimal integers `float()` reads, canonical integer text |
| `rounding.dfy` | `Rounding` | `round(x, 2)` and the `:.1f` format as round-half-even on reals |
| `sensors.dfy` | `Sensors` | ADC scaling, battery percentage, pressure, seawater density, depth |
| `onewire.dfy` | `OneWire` | the `w1_slave` layout and both temperature parsers |
| `annotator.dfy` | `Annotator` | one pass of the annotation script's main loop |
| `recorder.dfy` | `Recorder` | the `/start`, `/stop`, `/download` controller as a pure transition function |

Physical quantities are exact `real`s. A file is a sequence of lines, as `readlines()`
returns them. A file that cannot be opened is `None`. A directory listing is a sequence of
names. The ADC count is an input.

Two behaviours of the code are easy to miss. The model follows the code in both:

- `get_temperature` does not require a `t=` field on line 2. `split("t=")[-1]` of a line
  without the marker is the whole line, so a bare number is accepted
  (`OneWire.SensorLinesWithoutMarker`).
- `read_temperature` does not turn every failure into a sentinel. It returns `"Temp?°C"`
  and `"Error°C"`, but when the second line has no `t=` it falls through to `None`
  (`OneWire.Unmarked`).

## Model

| member | source | states |
|---|---|---|
| Sensors.SeawaterDensity | annotate_sensors.py:29-30 | density is 1000 kg/m3 in fresh water and at least that for any non-negative salinity |
| Sensors.ConfiguredDensity | annotate_sensors.py:22-30 | at the configured 35 PSU the density is exactly 1026.95 |
| Sensors.SeawaterDensityIncreasing | annotate_sensors.py:29-30 | density grows strictly with salinity |
| Sensors.AdcVolts | annotate_sensors.py:32-36 | count 0 is 0 V, count 32767 is the 4.096 V reference, and the volts have the sign of the count |
| Sensors.AdcVoltsMonotone | annotate_sensors.py:35 | the scaling is strictly increasing in the count |
| Sensors.AdcVoltsInverse | annotate_sensors.py:35 | the count is recovered from the volts, so the scaling is linear and loses nothing |
| Sensors.BatteryVoltage | annotate_sensors.py:38-41 | battery volts are twice the ADC volts to within the 0.005 of rounding, and are never negative for a non-negative count |
| Sensors.BatteryVoltageMonotone | annotate_sensors.py:38-41 | a larger count never gives fewer battery volts, rounding included |
| Sensors.LinearPercent | annotate_sensors.py:46 | the scale is 0 at 3.0 V and 100 at 4.2 V, and leaves [0, 100] exactly when the voltage leaves [3.0, 4.2], which is why line 47 clamps it |
| Sensors.ClampPercent | annotate_sensors.py:47 | the clamped percentage is in [0, 100], unchanged inside it and set to the nearer end outside |
| Sensors.BatteryPercentage | annotate_sensors.py:43-47 | the percentage is always in [0, 100]; it is 0 at or below 3.0 V and 100 at or above 4.2 V; in between it is the linear scale to within 0.005 |
| Sensors.BatteryPercentageMonotone | annotate_sensors.py:43-47 | more volts never give less charge |
| Sensors.BatteryPercentageInverse | annotate_sensors.py:44-47 | in [0, 100] the linear scale and the voltage for a percentage are inverse to each other |
| Sensors.ClampSensorVolts | annotate_sensors.py:63-64 | the sensor volts are pulled into [0.5, 4.5], unchanged inside and set to the nearer end outside |
| Sensors.PsiFromSensorVolts | annotate_sensors.py:63-66 | psi is in [0, 1000]; it is 0 exactly at or below 0.5 V and 1000 exactly at or above 4.5 V |
| Sensors.PsiMonotone | annotate_sensors.py:63-66 | more sensor volts never read as less pressure |
| Sensors.PsiInverse | annotate_sensors.py:66 | inside the rated span psi and sensor volts determine each other |
| Sensors.DepthFromPsi | annotate_sensors.py:66-69 | depth is non-negative for non-negative psi and is 0 exactly when psi is 0 |
| Sensors.DepthMonotone | annotate_sensors.py:67-69 | more pressure never gives a shallower depth |
| Sensors.DepthInverse | annotate_sensors.py:67-69 | psi is recovered from depth through the hydrostatic relation with the configured density and gravity |
| Sensors.DepthAtFullRange | annotate_sensors.py:13-19 | the full 1000 psi range corresponds to between 684.61 and 684.62 m of seawater |
| Sensors.PressureSensorVolts | annotate_sensors.py:62-63 | count 0 is 0 V, full scale is the reference times the divider (8.192 V), and the sign follows the count |
| Sensors.PressureAndDepth | annotate_sensors.py:61-71 | the rounded psi is the linear psi of the clamped sensor volts to within 0.005, and the rounded depth is the hydrostatic depth of the unrounded psi to within 0.005; psi is in [0, 1000] and depth in [0, 684.62]; both are 0 at or below 0.5 sensor volts, and psi is 1000 at or above 4.5 V |
| Sensors.PressureAndDepthMonotone | annotate_sensors.py:61-71 | a larger count never gives less psi or a shallower depth, rounding included |
| Rounding.RoundHalfEven | annotate_sensors.py:56 | the result is an integer nearest to the input, and a tie goes to the even neighbour |
| Rounding.RoundHalfEvenMonotone | annotate_sensors.py:71 | rounding preserves order |
| Rounding.Round2 | annotate_sensors.py:56 | `round(x, 2)` is within 0.005 of `x` |
| Rounding.Round2Monotone | annotate_sensors.py:71 | `round(x, 2)` preserves order |
| Rounding.Round2NonNegative | annotate_sensors.py:41 | rounding a non-negative value stays non-negative |
| Rounding.Round2OfHundredths | annotate_sensors.py:47 | a whole number of hundredths is left unchanged |
| Rounding.Round2Within | annotate_sensors.py:47 | rounding never leaves an interval whose ends are whole hundredths, so a clamped value stays clamped |
| Rounding.FormatOneDecimal | app.py:33 | the text ends in a point and one digit, and has a leading minus exactly when the value is negative |
| Rounding.FormatOneDecimalRoundTrip | app.py:33 | the formatted text reads back as the tenths nearest to the value |
| Text.Strip | app.py:27 | the stripped text is no longer than the line and neither starts nor ends with whitespace |
| Text.TrimStartSpec | annotate_sensors.py:53 | the leading strip keeps a suffix, removes only whitespace, and stops at the first non-space |
| Text.TrimEndSpec | annotate_sensors.py:53 | the trailing strip keeps a prefix, removes only whitespace, and stops at the last non-space |
| Text.StripSpec | app.py:27 | the stripped text neither starts nor ends with whitespace, and is empty exactly when the line is all whitespace |
| Text.TrimStartOfSpace | app.py:27 | an all-whitespace text strips to nothing |
| Text.TrimStartConcat | annotate_sensors.py:53 | leading whitespace never reaches past a non-space character |
| Text.TrimEndConcat | annotate_sensors.py:53 | trailing whitespace is dropped whatever precedes it |
| Text.StripPadded | annotate_sensors.py:53 | stripping removes exactly the padding around a word that starts and ends with non-space |
| Text.StripSplit | annotate_sensors.py:53 | every line is the whitespace strip removes in front, the stripped text, and the whitespace it removes behind |
| Text.ParseInteger | annotate_sensors.py:55 | blank text is rejected, and any text it reads ends, once stripped, in a digit |
| Text.SeparatorRejected | annotate_sensors.py:55 | a U+001C separator in front of a number is removed by `strip()` but makes `float()` fail, so the two whitespace sets differ |
| Text.ParseIntegerGrammar | annotate_sensors.py:55 | the whitespace `float()` skips (the `isspace()` set without U+001C to U+001F), no sign or `+` or `-`, a non-empty run of digits and that whitespace again is read as the digits' value, negated exactly after `-` |
| Text.ParseIntegerDecomposes | app.py:32 | every text that is read splits into the whitespace `float()` skips, a sign, a non-empty run of digits and whitespace, and its value is the signed digits |
| Text.ParseIntegerRoundTrip | annotate_sensors.py:55 | any integer written in decimal, padded with whitespace `float()` skips, reads back as itself |
| Text.ParseIntegerRejects | app.py:32 | a non-digit after the first character makes the conversion fail |
| Text.DecimalTextRoundTrip | annotate_sensors.py:55 | the digits written for a natural number read back as that number |
| OneWire.CrcPassed | app.py:27 | the first line passes exactly when, stripped, it is at least three characters long and ends in `YES`; a shorter line never passes |
| OneWire.FindMarkerFrom | app.py:29 | the result is the first `t=` at or after the start index, or None when there is none |
| OneWire.FindMarker | app.py:29-30 | `find("t=")` gives the first marker, and None (the -1 case) exactly when there is none |
| OneWire.FindLastMarkerBefore | annotate_sensors.py:54 | the result is the last `t=` before the bound, or None when there is none |
| OneWire.FindLastMarker | annotate_sensors.py:54 | the last marker of the line, and None exactly when there is none |
| OneWire.TextAfterLastMarker | annotate_sensors.py:54 | the split's last piece is a marker-free suffix of the line; it is the whole line exactly when the line has no `t=`, and otherwise a `t=` sits right before it |
| OneWire.LastMarkerOf | annotate_sensors.py:54 | after a prefix, the marker and a marker-free rest, the split's last piece is that rest |
| OneWire.FirstMarkerOf | app.py:29-31 | after a marker-free prefix, the first marker is the one that follows it |
| OneWire.CrcPassedOf | annotate_sensors.py:53 | a first line ending in `YES` and a newline passes the check, and one ending in `NO` fails it |
| OneWire.ParseSensorLines | annotate_sensors.py:49-59 | a value comes back exactly when there are at least two lines, the first ends in `YES` and the text after the last `t=` is a number; the value is that number over 1000, to within 0.005 |
| OneWire.GetTemperature | annotate_sensors.py:49-59 | a file that cannot be opened gives None and no error escapes |
| OneWire.SensorLinesRoundTrip | annotate_sensors.py:53-56 | a well-formed file with a passed check reads back as its millidegrees over 1000, rounded; a failed check gives None |
| OneWire.SensorLinesWithoutMarker | annotate_sensors.py:54-55 | a second line with no `t=` that is just a number is still read |
| OneWire.ParseDeviceLines | app.py:25-35 | NotReady exactly when the first line fails the check (line 2 is not looked at); Unmarked exactly when line 2 has no `t=`; Failed exactly for missing lines or an unreadable number after the first `t=`; otherwise that number over 1000 |
| OneWire.IsProbeFolder | app.py:22 | a folder is a probe exactly when its name begins with `2`, `8`, `-` |
| OneWire.FirstProbeFrom | app.py:22 | the first name in listing order that starts with `28-`, or None when there is none |
| OneWire.ReadTemperature | app.py:19-35 | an unreadable directory or no `28-` folder gives Failed; otherwise the first `28-` folder in listing order decides: its file's lines as `ParseDeviceLines` reads them, or Failed when that file cannot be opened |
| OneWire.FirstProbeDecides | app.py:22-35 | whatever follows the first `28-` folder, and whatever files later folders have, the reading is that folder's file parsed, or Failed when it cannot be opened |
| OneWire.OverlayText | app.py:27-35 | a failed check shows `"Temp?°C"`, any exception `"Error°C"`, a reading its `:.1f` text followed by `°C`, and the no-marker case returns None |
| OneWire.CelsiusTextReadsBack | app.py:33 | the text shown for a reading ends in `°C`, and what precedes it reads back as the tenths nearest to the value |
| OneWire.OverlayTextsDistinct | app.py:28-35 | a reading, `"Temp?°C"` and `"Error°C"` never look alike |
| OneWire.DeviceLinesRoundTrip | app.py:27-33 | a well-formed file reads back as its millidegrees over 1000; a failed check gives NotReady, shown as `"Temp?°C"` |
| OneWire.ParsersAgreeOnOneMarker | annotate_sensors.py:53-56 | with one `t=` on line 2, this parser yields a value exactly when `read_temperature` (app.py:27-33) yields a reading, and the two agree up to rounding; a failed check gives None in one and NotReady in the other |
| OneWire.ParsersDisagreeOnTwoMarkers | app.py:29-32 | with two `t=` markers, the annotation script reads the last number, while `read_temperature` fails on the text after the first marker |
| Annotator.Poll | annotate_sensors.py:88-94 | one loop pass shows battery volts within 0.005 of twice the ADC volts, the charge of exactly those displayed volts, the pressure and depth `get_pressure_and_depth` gives for the count, and the probe file's parse as the temperature (none when it is missing); the charge is in [0, 100], psi in [0, 1000], depth in [0, 684.62] |
| Annotator.PollChargeMonotone | annotate_sensors.py:90-91 | a higher battery count never shows a lower charge |
| Annotator.PollDepthMonotone | annotate_sensors.py:92 | a higher pressure count never shows less pressure or a shallower depth |
| Recorder.Initial | app.py:15-17 | the server comes up idle with the stop event clear, the video exists exactly when one was left on disk, and the controller is consistent |
| Recorder.StartRecording | app.py:52-72 | while recording, the reply is "Already recording" and nothing changes; while idle, the controller is recording with the stop event clear and the file present, and the reply is "Recording started" |
| Recorder.StopRecording | app.py:74-89 | while idle, the reply is "Not recording" and nothing changes; while recording, the stop event is set, the flag cleared, the file untouched, and the reply is "Recording stopped" |
| Recorder.DownloadVideo | app.py:91-96 | the file is sent exactly when it exists; otherwise the reply is "No video recorded yet" with status 404 |
| Recorder.Handle | app.py:52-96 | a download changes nothing, and the file exists afterwards exactly when it existed before or an idle server was started |
| Recorder.Run | app.py:52-96 | a run of requests gives one response per request |
| Recorder.RunInOrder | app.py:52-96 | the i-th response is what the i-th request gets from the controller the earlier requests left behind, so requests are served in order |
| Recorder.StartIdempotent | app.py:56-57 | a second start changes nothing and is refused |
| Recorder.StopIdempotent | app.py:78-79 | a second stop changes nothing and is refused |
| Recorder.StartStopRoundTrip | app.py:67-89 | from idle, start then stop ends idle with the stop event set; from a state a previous stop left, it ends exactly where it began |
| Recorder.HandleConsistent | app.py:52-96 | every request keeps "recording implies stop event clear and file present" |
| Recorder.RunConsistent | app.py:52-96 | any request sequence keeps that invariant |
| Recorder.RunAlternates | app.py:56-89 | over any run, accepted starts minus accepted stops equals the change of the recording flag, so starts and stops alternate |
| Recorder.NoStartKeepsVideo | app.py:74-96 | requests without a start never create the video file |
| Recorder.DownloadBeforeRecording | app.py:91-96 | a server that came up with no video answers 404 to a download until something is started |
| Recorder.DownloadAfterStart | app.py:59-72 | after a start from a consistent state, a download sends the video |

## Left out

- The hardware is left out: the ADS1115 driver read (annotate_sensors.py:33-34), all Picamera2 and H264Encoder configuration and start/stop calls (app.py:59-65, 85-86), and `set_overlay_text`. The ADC count is an input.
- File and HTTP I/O are left out: opening the probe and annotation files, Flask routing and status plumbing, `send_file`, `os.makedirs` and `os.path.join`. A probe file is its lines, the listing is a sequence of names, file existence is a boolean, and a probe's file is looked up by its folder name.
- Concurrency and timing are left out: the overlay thread loop `update_overlay` (app.py:43-50), `thread.join`, `time.sleep`, the endless main loop (annotate_sensors.py:88-95), and the unlocked flag race. `Annotator.Poll` models one iteration.
- Presentation is left out: the annotation text layout and its write (annotate_sensors.py:73-85), the `print` logging, `datetime.now()` timestamps, and the placeholder tide and moon strings of `fetch_tide_and_moon` (app.py:37-41).
- Recorder.StartRecording: assumes a start always succeeds and that it creates the video file the encoder writes. A camera call that raises midway would leave the flag unset, and this is not modelled. `timestamp_thread` is not modelled separately, because it is always present while recording.
- Rounding.Round2: rounds the exact real half to even. Python rounds the nearest IEEE double, which can fall on the other side of a tie (`round(2.675, 2)` is 2.67).
- Rounding.FormatOneDecimal: has the same exact-real rounding. It also ignores the IEEE negative zero, which Python prints as `-0.0` when the probe reports `-0`.
- Text.ParseInteger: accepts only an optionally signed run of ASCII decimal digits with whitespace around it. Python's `float()` also accepts fractions, exponents, underscores, `inf`, `nan` and non-ASCII Unicode decimal digits (`float("٣")` is 3.0). Such text is treated as rejected.
- OneWire.TextAfterLastMarker: takes the text after the last `t=` in place of the last piece of `split("t=")`. The two are equal because `t=` cannot overlap itself.

=== FILE: annotator.dfy ===
/**
 One pass of the annotation script's main loop: the battery and pressure channels and the
 temperature probe, reduced to the five values that `write_annotation` formats.
 */
module Annotator {
  import opened Wrappers
  import opened Sensors
  import opened OneWire

  datatype Annotation = Annotation(
    batteryV: real,
    batteryPercent: real,
    pressurePsi: real,
    depthM: real,
    temperatureC: Option<real>)

  /**
   The values one loop iteration computes from the ADC counts on AIN2 (battery) and AIN3
   (pressure) and from the probe file (None when it cannot be opened).
   */
  function Poll(batteryRaw: int, pressureRaw: int, probeFile: Option<seq<string>>): (a: Annotation)
    ensures 0.0 <= a.batteryPercent <= 100.0
    ensures a.batteryV <= BatteryVMin ==> a.batteryPercent == 0.0
    ensures a.batteryV >= BatteryVMax ==> a.batteryPercent == 100.0
    ensures batteryRaw >= 0 ==> a.batteryV >= 0.0
    ensures 0.0 <= a.pressurePsi <= PressurePsiRange && 0.0 <= a.depthM <= 684.62
    ensures probeFile.None? ==> a.temperatureC.None?
    ensures probeFile.Some? ==> a.temperatureC == ParseSensorLines(probeFile.value)
    ensures -0.005 <= a.batteryV - AdcVolts(batteryRaw) * DividerBattery <= 0.005
    ensures a.batteryPercent == BatteryPercentage(a.batteryV)
    ensures PressureReading(a.pressurePsi, a.depthM) == PressureAndDepth(pressureRaw)
  {
    var battery := BatteryVoltage(batteryRaw);
    var pressure := PressureAndDepth(pressureRaw);
    Annotation(battery, BatteryPercentage(battery), pressure.psi, pressure.depthM, GetTemperature(probeFile))
  }

  /** A higher battery count never shows a lower charge. */
  lemma PollChargeMonotone(raw1: int, raw2: int, pressureRaw: int, probeFile: Option<seq<string>>)
    requires raw1 <= raw2
    ensures Poll(raw1, pressureRaw, probeFile).batteryPercent <= Poll(raw2, pressureRaw, probeFile).batteryPercent
  {
    BatteryVoltageMonotone(raw1, raw2);
    BatteryPercentageMonotone(BatteryVoltage(raw1), BatteryVoltage(raw2));
  }

  /** A higher pressure count never shows less pressure or a shallower depth. */
  lemma PollDepthMonotone(batteryRaw: int, raw1: int, raw2: int, probeFile: Option<seq<string>>)
    requires raw1 <= raw2
    ensures Poll(batteryRaw, raw1, probeFile).pressurePsi <= Poll(batteryRaw, raw2, probeFile).pressurePsi
    ensures Poll(batteryRaw, raw1, probeFile).depthM <= Poll(batteryRaw, raw2, probeFile).depthM
  {
    PressureAndDepthMonotone(raw1, raw2);
  }
}

=== FILE: onewire.dfy ===
/**
 The one-wire (DS18B20) `w1_slave` file and its two parsers. The kernel writes two lines:
 the scratchpad bytes ending in `crc=.. YES` (or `NO`) when the CRC check passed, and the
 same bytes followed by `t=<millidegrees>`. File contents are a sequence of lines as
 `readlines()` returns them; a file that cannot be opened is `None`.
 */
module OneWire {
  import opened Wrappers
  import opened Text
  import opened Rounding

  /** `s[-3:]` in Python: the last three characters, or all of a shorter string. */
  function LastThree(s: string): string {
    if |s| < 3 then s else s[|s| - 3..]
  }

  /** `lines[0].strip()[-3:] == "YES"`: the sensor reports that the CRC check passed. */
  predicate CrcPassed(firstLine: string)
    ensures CrcPassed(firstLine) <==>
      var t := Strip(firstLine);
      |t| >= 3 && t[|t| - 3] == 'Y' && t[|t| - 2] == 'E' && t[|t| - 1] == 'S'
  {
    LastThree(Strip(firstLine)) == "YES"
  }

  /** The marker `t=` that precedes the temperature begins at index `i` of `s`. */
  predicate MarkerAt(s: string, i: int) {
    0 <= i && i + 1 < |s| && s[i] == 't' && s[i + 1] == '='
  }

  predicate NoMarker(s: string) {
    forall i :: 0 <= i < |s| ==> !MarkerAt(s, i)
  }

  /** The first marker at or after `from`: `s.find("t=", from)`, with None for -1. */
  function FindMarkerFrom(s: string, from: nat): (r: Option<nat>)
    requires from <= |s|
    ensures r.Some? ==> from <= r.value && MarkerAt(s, r.value)
    ensures r.Some? ==> forall j :: from <= j < r.value ==> !MarkerAt(s, j)
    ensures r.None? ==> forall j :: from <= j < |s| ==> !MarkerAt(s, j)
    decreases |s| - from
  {
    if from + 1 >= |s| then None
    else if MarkerAt(s, from) then Some(from)
    else FindMarkerFrom(s, from + 1)
  }

  /** `s.find("t=")`. */
  function FindMarker(s: string): (r: Option<nat>)
    ensures r.Some? ==> MarkerAt(s, r.value) && forall j :: 0 <= j < r.value ==> !MarkerAt(s, j)
    ensures r.None? <==> NoMarker(s)
  {
    FindMarkerFrom(s, 0)
  }

  /** The last marker that starts before `upto`. */
  function FindLastMarkerBefore(s: string, upto: nat): (r: Option<nat>)
    requires upto <= |s|
    ensures r.Some? ==> r.value < upto && MarkerAt(s, r.value)
    ensures r.Some? ==> forall j :: r.value < j < upto ==> !MarkerAt(s, j)
    ensures r.None? ==> forall j :: 0 <= j < upto ==> !MarkerAt(s, j)
  {
    if upto == 0 then None
    else if MarkerAt(s, upto - 1) then Some(upto - 1)
    else FindLastMarkerBefore(s, upto - 1)
  }

  /** `s.rfind("t=")`. */
  function FindLastMarker(s: string): (r: Option<nat>)
    ensures r.Some? ==> MarkerAt(s, r.value) && forall j :: r.value < j < |s| ==> !MarkerAt(s, j)
    ensures r.None? <==> NoMarker(s)
  {
    FindLastMarkerBefore(s, |s|)
  }

  /**
   `s.split("t=")[-1]`: the text after the last marker, or all of `s` when there is none.
   Occurrences of `t=` cannot overlap, so the last piece of the split starts right after
   the last occurrence.
   */
  function TextAfterLastMarker(s: string): (r: string)
    ensures |r| <= |s| && NoMarker(r)
    ensures r == s <==> NoMarker(s)
    ensures !NoMarker(s) ==> |r| + 2 <= |s| && MarkerAt(s, |s| - |r| - 2) && r == s[|s| - |r|..]
  {
    match FindLastMarker(s)
    case None => s
    case Some(p) =>
      var rest := s[p + 2..];
      assert NoMarker(rest) by {
        forall i | 0 <= i < |rest|
          ensures !MarkerAt(rest, i)
        {
          assert !MarkerAt(s, p + 2 + i);
        }
      }
      rest
  }

  /** A line made of a prefix, the marker and a marker-free rest has its last marker there. */
  lemma LastMarkerOf(prefix: string, rest: string)
    requires NoMarker(rest)
    ensures FindLastMarker(prefix + "t=" + rest) == Some(|prefix|)
    ensures TextAfterLastMarker(prefix + "t=" + rest) == rest
  {
    var s := prefix + "t=" + rest;
    assert MarkerAt(s, |prefix|);
    forall j | |prefix| < j < |s|
      ensures !MarkerAt(s, j)
    {
      if j == |prefix| + 1 {
        assert s[j] == '=';
      } else if j + 1 < |s| {
        assert s[j] == rest[j - |prefix| - 2] && s[j + 1] == rest[j - |prefix| - 1];
        assert !MarkerAt(rest, j - |prefix| - 2);
      }
    }
    assert s[|prefix| + 2..] == rest;
  }

  /** A line whose marker-free prefix is followed by the marker has its first marker there. */
  lemma FirstMarkerOf(prefix: string, rest: string)
    requires NoMarker(prefix)
    ensures FindMarker(prefix + "t=" + rest) == Some(|prefix|)
  {
    var s := prefix + "t=" + rest;
    assert MarkerAt(s, |prefix|);
    forall j | 0 <= j < |prefix|
      ensures !MarkerAt(s, j)
    {
      if j + 1 < |prefix| {
        assert s[j] == prefix[j] && s[j + 1] == prefix[j + 1];
        assert !MarkerAt(prefix, j);
      } else {
        assert s[j + 1] == 't';
      }
    }
  }

  /** Text with no letter `t` holds no marker. */
  lemma NoMarkerWithoutT(s: string)
    requires forall k :: 0 <= k < |s| ==> s[k] != 't'
    ensures NoMarker(s)
  {
  }

  /** A file in the layout the kernel writes: `crc=.. YES`/`NO`, then `t=` and the millidegrees. */
  function SensorFile(head: string, crcPassed: bool, scratchpad: string, millidegrees: int): seq<string> {
    [ head + (if crcPassed then "YES" else "NO") + "\n",
      scratchpad + "t=" + IntegerText(millidegrees) + "\n" ]
  }

  lemma CrcPassedOf(head: string, crcPassed: bool)
    ensures CrcPassed(head + (if crcPassed then "YES" else "NO") + "\n") == crcPassed
  {
    var word := if crcPassed then "YES" else "NO";
    assert AllSpace("\n");
    StripPadded(head, word, "\n");
    var t := Strip(head + word + "\n");
    assert t == TrimStart(head) + word;
    assert t[|t| - 1] == word[|word| - 1];
  }

  lemma ReadingTextOf(millidegrees: int)
    ensures NoMarker(IntegerText(millidegrees) + "\n")
    ensures ParseInteger(IntegerText(millidegrees) + "\n") == Some(millidegrees)
  {
    var s := IntegerText(millidegrees) + "\n";
    assert forall k :: 0 <= k < |s| ==> s[k] != 't' by {
      forall k | 0 <= k < |s|
        ensures s[k] != 't'
      {
        if k < |s| - 1 {
          assert s[k] == IntegerText(millidegrees)[k];
        }
      }
    }
    NoMarkerWithoutT(s);
    assert AllFloatSpace("") && AllFloatSpace("\n");
    ParseIntegerRoundTrip(millidegrees, "", "\n");
    assert "" + IntegerText(millidegrees) + "\n" == s;
  }

  // ---------------------------------------------------------------------------------------
  // annotate_sensors.py: get_temperature

  /**
   The temperature in Celsius, rounded to hundredths, that `get_temperature` returns for
   the lines of the sensor file; None for a failed CRC check, a missing line or a value
   `float()` rejects (every error is caught).
   */
  function ParseSensorLines(lines: seq<string>): (r: Option<real>)
    ensures r.Some? <==>
      |lines| >= 2 && CrcPassed(lines[0]) && ParseInteger(TextAfterLastMarker(lines[1])).Some?
    ensures r.Some? ==>
      var milli := ParseInteger(TextAfterLastMarker(lines[1])).value;
      -0.005 <= r.value - milli as real / 1000.0 <= 0.005
  {
    if |lines| == 0 || !CrcPassed(lines[0]) || |lines| < 2 then None
    else match ParseInteger(TextAfterLastMarker(lines[1]))
      case None => None
      case Some(milli) => Some(Round2(milli as real / 1000.0))
  }

  /** `get_temperature`, with the sensor file's lines, or None when it cannot be opened. */
  function GetTemperature(file: Option<seq<string>>): (r: Option<real>)
    ensures file.None? ==> r.None?
    ensures file.Some? ==> r == ParseSensorLines(file.value)
  {
    match file
    case None => None
    case Some(lines) => ParseSensorLines(lines)
  }

  /** A well-formed file reads back as its millidegrees in Celsius; a failed CRC as None. */
  lemma SensorLinesRoundTrip(head: string, crcPassed: bool, scratchpad: string, millidegrees: int)
    ensures ParseSensorLines(SensorFile(head, crcPassed, scratchpad, millidegrees))
         == if crcPassed then Some(Round2(millidegrees as real / 1000.0)) else None
  {
    var lines := SensorFile(head, crcPassed, scratchpad, millidegrees);
    CrcPassedOf(head, crcPassed);
    assert CrcPassed(lines[0]) == crcPassed;
    var rest := IntegerText(millidegrees) + "\n";
    ReadingTextOf(millidegrees);
    assert lines[1] == scratchpad + "t=" + rest;
    LastMarkerOf(scratchpad, rest);
    assert TextAfterLastMarker(lines[1]) == rest;
    assert ParseInteger(TextAfterLastMarker(lines[1])) == Some(millidegrees);
    if crcPassed {
      AcceptedSensorLines(lines, millidegrees);
    } else {
      assert ParseSensorLines(lines) == None;
    }
  }

  lemma AcceptedSensorLines(lines: seq<string>, milli: int)
    requires |lines| >= 2 && CrcPassed(lines[0])
    requires ParseInteger(TextAfterLastMarker(lines[1])) == Some(milli)
    ensures ParseSensorLines(lines) == Some(Round2(milli as real / 1000.0))
  {
  }

  /**
   The marker is not required: when the second line has no `t=`, the split leaves the whole
   line, and a line that is just a number is read as millidegrees.
   */
  lemma SensorLinesWithoutMarker(head: string, millidegrees: int)
    ensures ParseSensorLines([head + "YES" + "\n", IntegerText(millidegrees) + "\n"])
         == Some(Round2(millidegrees as real / 1000.0))
  {
    var lines := [head + "YES" + "\n", IntegerText(millidegrees) + "\n"];
    CrcPassedOf(head, true);
    assert CrcPassed(lines[0]);
    ReadingTextOf(millidegrees);
    assert TextAfterLastMarker(lines[1]) == lines[1];
    AcceptedSensorLines(lines, millidegrees);
  }

  // ---------------------------------------------------------------------------------------
  // app.py: read_temperature

  /** What `read_temperature` makes of the sensor. */
  datatype Reading =
    | Celsius(value: real)   // a reading, shown as `f"{value:.1f}°C"`
    | NotReady               // the CRC check failed: "Temp?°C"
    | Unmarked               // no `t=` on the second line: the function returns None
    | Failed                 // any exception: "Error°C"

  /** `read_temperature` once the sensor file has been opened and read into lines. */
  function ParseDeviceLines(lines: seq<string>): (r: Reading)
    ensures r == Failed <==>
      || |lines| == 0
      || (CrcPassed(lines[0]) && |lines| < 2)
      || (CrcPassed(lines[0]) && FindMarker(lines[1]).Some?
          && ParseInteger(lines[1][FindMarker(lines[1]).value + 2..]).None?)
    ensures r == NotReady <==> |lines| > 0 && !CrcPassed(lines[0])
    ensures r == Unmarked <==> |lines| >= 2 && CrcPassed(lines[0]) && NoMarker(lines[1])
    ensures r.Celsius? ==>
      && |lines| >= 2 && FindMarker(lines[1]).Some?
      && var milli := ParseInteger(lines[1][FindMarker(lines[1]).value + 2..]);
         milli.Some? && r.value == milli.value as real / 1000.0
  {
    if |lines| == 0 then Failed
    else if !CrcPassed(lines[0]) then NotReady
    else if |lines| < 2 then Failed
    else match FindMarker(lines[1])
      case None => Unmarked
      case Some(p) =>
        match ParseInteger(lines[1][p + 2..])
        case None => Failed
        case Some(milli) => Celsius(milli as real / 1000.0)
  }

  /** A directory entry of a DS18B20 probe: its name starts with the family code `28-`. */
  predicate IsProbeFolder(name: string)
    ensures IsProbeFolder(name) <==> |name| >= 3 && name[0] == '2' && name[1] == '8' && name[2] == '-'
  {
    |name| >= 3 && name[..3] == "28-"
  }

  /** The index of the first probe folder at or after `from` in a directory listing. */
  function FirstProbeFrom(names: seq<string>, from: nat): (r: Option<nat>)
    requires from <= |names|
    ensures r.Some? ==> from <= r.value < |names| && IsProbeFolder(names[r.value])
    ensures r.Some? ==> forall j :: from <= j < r.value ==> !IsProbeFolder(names[j])
    ensures r.None? ==> forall j :: from <= j < |names| ==> !IsProbeFolder(names[j])
    decreases |names| - from
  {
    if from == |names| then None
    else if IsProbeFolder(names[from]) then Some(from)
    else FirstProbeFrom(names, from + 1)
  }

  /**
   `read_temperature`: `listing` is `os.listdir` of the one-wire devices directory (None
   when it cannot be listed) and `files` holds the lines of each probe's `w1_slave` file
   that can be opened. The first probe in listing order is read.
   */
  function ReadTemperature(listing: Option<seq<string>>, files: map<string, seq<string>>): (r: Reading)
    ensures listing.None? ==> r == Failed
    ensures listing.Some? && (forall j :: 0 <= j < |listing.value| ==> !IsProbeFolder(listing.value[j]))
            ==> r == Failed
    ensures listing.Some? ==> forall j ::
      && 0 <= j < |listing.value| && IsProbeFolder(listing.value[j])
      && (forall k :: 0 <= k < j ==> !IsProbeFolder(listing.value[k]))
      ==> r == (if listing.value[j] in files then ParseDeviceLines(files[listing.value[j]]) else Failed)
  {
    match listing
    case None => Failed
    case Some(names) =>
      match FirstProbeFrom(names, 0)
      case None => Failed
      case Some(i) =>
        if names[i] in files then ParseDeviceLines(files[names[i]]) else Failed
  }

  /**
   Only the first probe folder counts: names before it that are not probes, later folders
   and their files make no difference, and a first probe whose file cannot be opened is Failed.
   */
  lemma FirstProbeDecides(before: seq<string>, probe: string, after: seq<string>, files: map<string, seq<string>>)
    requires forall k :: 0 <= k < |before| ==> !IsProbeFolder(before[k])
    requires IsProbeFolder(probe)
    ensures ReadTemperature(Some(before + [probe] + after), files)
         == if probe in files then ParseDeviceLines(files[probe]) else Failed
  {
    var names := before + [probe] + after;
    assert names[|before|] == probe;
    forall k | 0 <= k < |before|
      ensures !IsProbeFolder(names[k])
    {
      assert names[k] == before[k];
    }
  }

  const DegreeSign: string := "°C"

  /** The overlay text `read_temperature` returns; None for its fall-through `return None`. */
  function OverlayText(r: Reading): (text: Option<string>)
    ensures text.None? <==> r == Unmarked
    ensures r == NotReady ==> text == Some("Temp?" + DegreeSign)
    ensures r == Failed ==> text == Some("Error" + DegreeSign)
    ensures r.Celsius? ==> text == Some(FormatOneDecimal(r.value) + DegreeSign)
  {
    match r
    case Celsius(value) => Some(FormatOneDecimal(value) + DegreeSign)
    case NotReady => Some("Temp?" + DegreeSign)
    case Unmarked => None
    case Failed => Some("Error" + DegreeSign)
  }

  /** A reading shows its `:.1f` text, which reads back as the nearest tenths, then `°C`. */
  lemma CelsiusTextReadsBack(v: real)
    ensures OverlayText(Celsius(v)).Some?
    ensures var t := OverlayText(Celsius(v)).value;
      && |t| >= 5 && t[|t| - 2..] == DegreeSign
      && var f := t[..|t| - 2];
         && f[|f| - 2] == '.' && IsDigit(f[|f| - 1]) && (f[0] == '-' ==> |f| >= 4)
         && AllDigits(if f[0] == '-' then f[1..|f| - 2] else f[..|f| - 2])
         && TenthsOf(f) == RoundHalfEven(v * 10.0)
  {
    var f := FormatOneDecimal(v);
    var t := f + DegreeSign;
    FormatOneDecimalRoundTrip(v);
    assert t[..|t| - 2] == f;
    assert t[|t| - 2..] == DegreeSign;
  }

  /** Different outcomes show different texts, except two readings that round alike. */
  lemma OverlayTextsDistinct(a: Reading, b: Reading)
    requires a != b && a != Unmarked && b != Unmarked
    requires !(a.Celsius? && b.Celsius?)
    ensures OverlayText(a) != OverlayText(b)
  {
    assert OverlayText(a).value[0] != OverlayText(b).value[0];
  }

  /** A well-formed file reads back as its millidegrees in Celsius; a failed CRC as NotReady. */
  lemma DeviceLinesRoundTrip(head: string, crcPassed: bool, scratchpad: string, millidegrees: int)
    requires NoMarker(scratchpad)
    ensures ParseDeviceLines(SensorFile(head, crcPassed, scratchpad, millidegrees))
         == if crcPassed then Celsius(millidegrees as real / 1000.0) else NotReady
    ensures !crcPassed ==>
      OverlayText(ParseDeviceLines(SensorFile(head, crcPassed, scratchpad, millidegrees)))
      == Some("Temp?" + DegreeSign)
  {
    var lines := SensorFile(head, crcPassed, scratchpad, millidegrees);
    CrcPassedOf(head, crcPassed);
    assert CrcPassed(lines[0]) == crcPassed;
    var rest := IntegerText(millidegrees) + "\n";
    ReadingTextOf(millidegrees);
    assert lines[1] == scratchpad + "t=" + rest;
    FirstMarkerOf(scratchpad, rest);
    assert lines[1][|scratchpad| + 2..] == rest;
    if crcPassed {
      AcceptedDeviceLines(lines, |scratchpad|, millidegrees);
    } else {
      assert ParseDeviceLines(lines) == NotReady;
    }
  }

  lemma AcceptedDeviceLines(lines: seq<string>, p: nat, milli: int)
    requires |lines| >= 2 && CrcPassed(lines[0]) && FindMarker(lines[1]) == Some(p)
    requires ParseInteger(lines[1][p + 2..]) == Some(milli)
    ensures ParseDeviceLines(lines) == Celsius(milli as real / 1000.0)
  {
  }

  // ---------------------------------------------------------------------------------------
  // The two parsers side by side

  /**
   With a single `t=` on the second line the two parsers agree: one yields a value exactly
   when the other yields a reading, the same temperature up to `round(.., 2)`, and a failed
   CRC check is None for one and "Temp?°C" for the other.
   */
  lemma ParsersAgreeOnOneMarker(lines: seq<string>)
    requires |lines| >= 2 && FindMarker(lines[1]).Some?
    requires FindMarker(lines[1]) == FindLastMarker(lines[1])
    ensures ParseSensorLines(lines).Some? <==> ParseDeviceLines(lines).Celsius?
    ensures ParseDeviceLines(lines).Celsius? ==>
      ParseSensorLines(lines).value == Round2(ParseDeviceLines(lines).value)
    ensures !CrcPassed(lines[0]) ==> ParseSensorLines(lines) == None && ParseDeviceLines(lines) == NotReady
  {
    var p := FindMarker(lines[1]).value;
    var text := lines[1][p + 2..];
    assert TextAfterLastMarker(lines[1]) == text;
    if CrcPassed(lines[0]) && ParseInteger(text).Some? {
      var milli := ParseInteger(text).value;
      var celsius := milli as real / 1000.0;
      AcceptedSensorLines(lines, milli);
      AcceptedDeviceLines(lines, p, milli);
      assert ParseDeviceLines(lines).value == celsius;
      assert ParseSensorLines(lines).value == Round2(celsius);
    } else {
      RejectedByBoth(lines, p);
      assert !ParseDeviceLines(lines).Celsius?;
    }
  }

  lemma RejectedByBoth(lines: seq<string>, p: nat)
    requires |lines| >= 2 && FindMarker(lines[1]) == Some(p)
    requires TextAfterLastMarker(lines[1]) == lines[1][p + 2..]
    requires !CrcPassed(lines[0]) || ParseInteger(lines[1][p + 2..]).None?
    ensures ParseSensorLines(lines) == None
    ensures ParseDeviceLines(lines) == if CrcPassed(lines[0]) then Failed else NotReady
  {
  }

  /** The second line of a file that carries two readings, each after its own `t=`. */
  function TwoReadingLine(first: int, last: int): string {
    "t=" + IntegerText(first) + "t=" + IntegerText(last) + "\n"
  }

  lemma TwoReadingLineLast(first: int, last: int)
    ensures ParseInteger(TextAfterLastMarker(TwoReadingLine(first, last))) == Some(last)
  {
    ReadingTextOf(last);
    assert TwoReadingLine(first, last) == ("t=" + IntegerText(first)) + "t=" + (IntegerText(last) + "\n");
    LastMarkerOf("t=" + IntegerText(first), IntegerText(last) + "\n");
  }

  lemma TwoReadingLineFirst(first: int, last: int)
    ensures FindMarker(TwoReadingLine(first, last)) == Some(0)
    ensures ParseInteger(TwoReadingLine(first, last)[2..]) == None
  {
    var line := TwoReadingLine(first, last);
    assert MarkerAt(line, 0);
    var word := IntegerText(first) + "t=" + IntegerText(last);
    assert line[2..] == [] + word + "\n";
    assert AllSpace("\n");
    StripPadded([], word, "\n");
    TrimStartOfSpace([]);
    assert Strip(line[2..]) == word;
    assert word[|IntegerText(first)|] == 't';
    ParseIntegerRejects(line[2..], |IntegerText(first)|);
  }

  /**
   Two `t=` markers on the second line separate the parsers: the annotation script reads the
   number after the last one, while `read_temperature` feeds everything after the first one
   to `float()`, which fails.
   */
  lemma ParsersDisagreeOnTwoMarkers(head: string, first: int, last: int)
    ensures var lines := [head + "YES" + "\n", TwoReadingLine(first, last)];
      && ParseSensorLines(lines) == Some(Round2(last as real / 1000.0))
      && ParseDeviceLines(lines) == Failed
  {
    var lines := [head + "YES" + "\n", TwoReadingLine(first, last)];
    CrcPassedOf(head, true);
    assert CrcPassed(lines[0]);
    TwoReadingLineLast(first, last);
    AcceptedSensorLines(lines, last);
    TwoReadingLineFirst(first, last);
  }
}

=== FILE: recorder.dfy ===
/**
 The camera server's recording controller: `/start` and `/stop` toggle one recording flag and
 the overlay thread's stop event, and `/download` serves the recorded file when it exists.
 The camera calls and the overlay thread itself are outside the model; a start is taken to
 create the video file that the encoder writes.
 */
module Recorder {

  /** The server's mutable state. */
  datatype Controller = Controller(
    isRecording: bool,   // `is_recording`
    stopSet: bool,       // whether `stop_timestamp` is set
    videoExists: bool)   // whether `recordings/video.h264` exists on disk

  /** A plain-text reply with its HTTP status, or the video sent as an attachment. */
  datatype Response = Text(body: string, status: nat) | Attachment(path: string)

  datatype Request = Start | Stop | Download

  const VideoPath: string := "recordings/video.h264"

  /** The server as it comes up: idle, stop event clear, and a video left over or not. */
  function Initial(videoOnDisk: bool): (r: Controller)
    ensures !r.isRecording && !r.stopSet && r.videoExists == videoOnDisk
    ensures Consistent(r)
  {
    Controller(false, false, videoOnDisk)
  }

  /** Once running, recording means the overlay thread may run and the encoder has a file. */
  predicate Consistent(c: Controller) {
    c.isRecording ==> !c.stopSet && c.videoExists
  }

  /** `start_recording`. */
  function StartRecording(c: Controller): (r: (Controller, Response))
    ensures c.isRecording ==> r == (c, Text("Already recording", 200))
    ensures !c.isRecording ==>
      r.0 == Controller(true, false, true) && r.1 == Text("Recording started", 200)
  {
    if c.isRecording then (c, Text("Already recording", 200))
    else (c.(isRecording := true, stopSet := false, videoExists := true), Text("Recording started", 200))
  }

  /** `stop_recording`. */
  function StopRecording(c: Controller): (r: (Controller, Response))
    ensures !c.isRecording ==> r == (c, Text("Not recording", 200))
    ensures c.isRecording ==>
      r.0 == c.(isRecording := false, stopSet := true) && r.1 == Text("Recording stopped", 200)
  {
    if !c.isRecording then (c, Text("Not recording", 200))
    else (c.(isRecording := false, stopSet := true), Text("Recording stopped", 200))
  }

  /** `download_video`: the file when it exists, otherwise a 404 text. */
  function DownloadVideo(c: Controller): (r: Response)
    ensures r.Attachment? <==> c.videoExists
    ensures r.Attachment? ==> r.path == VideoPath
    ensures !c.videoExists ==> r == Text("No video recorded yet", 404)
  {
    if c.videoExists then Attachment(VideoPath) else Text("No video recorded yet", 404)
  }

  /** One request handled by its route; a download changes nothing. */
  function Handle(c: Controller, req: Request): (r: (Controller, Response))
    ensures req == Download ==> r.0 == c
    ensures r.0.videoExists == (c.videoExists || (req == Start && !c.isRecording))
  {
    match req
    case Start => StartRecording(c)
    case Stop => StopRecording(c)
    case Download => (c, DownloadVideo(c))
  }

  /** Requests served one after another, with the responses in order. */
  function Run(c: Controller, reqs: seq<Request>): (r: (Controller, seq<Response>))
    ensures |r.1| == |reqs|
    decreases |reqs|
  {
    if |reqs| == 0 then (c, [])
    else
      var (next, resp) := Handle(c, reqs[0]);
      var (last, resps) := Run(next, reqs[1..]);
      (last, [resp] + resps)
  }

  /**
   The responses come in request order: the i-th is what the i-th request gets from the
   controller the earlier requests left behind.
   */
  lemma {:induction false} RunInOrder(c: Controller, reqs: seq<Request>)
    ensures forall i :: 0 <= i < |reqs| ==> Run(c, reqs).1[i] == Handle(Run(c, reqs[..i]).0, reqs[i]).1
    decreases |reqs|
  {
    if |reqs| > 0 {
      var next := Handle(c, reqs[0]).0;
      RunInOrder(next, reqs[1..]);
      forall i | 0 <= i < |reqs|
        ensures Run(c, reqs).1[i] == Handle(Run(c, reqs[..i]).0, reqs[i]).1
      {
        if i == 0 {
          assert reqs[..0] == [];
        } else {
          var prefix := reqs[..i];
          assert prefix[0] == reqs[0];
          assert prefix[1..] == reqs[1..][..i - 1];
          assert reqs[1..][i - 1] == reqs[i];
        }
      }
    }
  }

  /** Repeating a start changes nothing and is refused. */
  lemma StartIdempotent(c: Controller)
    ensures StartRecording(StartRecording(c).0).0 == StartRecording(c).0
    ensures StartRecording(StartRecording(c).0).1 == Text("Already recording", 200)
  {
  }

  /** Repeating a stop changes nothing and is refused. */
  lemma StopIdempotent(c: Controller)
    ensures StopRecording(StopRecording(c).0).0 == StopRecording(c).0
    ensures StopRecording(StopRecording(c).0).1 == Text("Not recording", 200)
  {
  }

  /**
   From idle, a start followed by a stop is idle again with the stop event set and the
   video on disk; from a state a previous stop left, it is exactly where it began.
   */
  lemma StartStopRoundTrip(c: Controller)
    requires !c.isRecording
    ensures StopRecording(StartRecording(c).0).0 == c.(stopSet := true, videoExists := true)
    ensures StopRecording(StartRecording(c).0).1 == Text("Recording stopped", 200)
    ensures c.stopSet && c.videoExists ==> StopRecording(StartRecording(c).0).0 == c
  {
  }

  /** Every request keeps a consistent controller consistent. */
  lemma HandleConsistent(c: Controller, req: Request)
    requires Consistent(c)
    ensures Consistent(Handle(c, req).0)
  {
  }

  /** The number of responses equal to `body`. */
  function CountText(resps: seq<Response>, body: string): nat {
    if |resps| == 0 then 0
    else (if resps[0] == Text(body, 200) then 1 else 0) + CountText(resps[1..], body)
  }

  /**
   Starts and stops alternate: over any run, the accepted starts exceed the accepted stops
   by the change in the recording flag, so from idle they never differ by more than one.
   */
  lemma {:induction false} RunAlternates(c: Controller, reqs: seq<Request>)
    ensures var (last, resps) := Run(c, reqs);
      CountText(resps, "Recording started") - CountText(resps, "Recording stopped")
        == (if last.isRecording then 1 else 0) - (if c.isRecording then 1 else 0)
    decreases |reqs|
  {
    if |reqs| > 0 {
      var (next, resp) := Handle(c, reqs[0]);
      var (last, resps) := Run(next, reqs[1..]);
      RunAlternates(next, reqs[1..]);
      assert Run(c, reqs).1 == [resp] + resps;
      assert ([resp] + resps)[1..] == resps;
    }
  }

  /** A run from a consistent state keeps it consistent. */
  lemma {:induction false} RunConsistent(c: Controller, reqs: seq<Request>)
    requires Consistent(c)
    ensures Consistent(Run(c, reqs).0)
    decreases |reqs|
  {
    if |reqs| > 0 {
      HandleConsistent(c, reqs[0]);
      RunConsistent(Handle(c, reqs[0]).0, reqs[1..]);
    }
  }

  /** Without a start, a server that came up with no video still answers a download with 404. */
  lemma {:induction false} DownloadBeforeRecording(reqs: seq<Request>)
    requires forall i :: 0 <= i < |reqs| ==> reqs[i] != Start
    ensures DownloadVideo(Run(Initial(false), reqs).0) == Text("No video recorded yet", 404)
  {
    NoStartKeepsVideo(Initial(false), reqs);
  }

  lemma {:induction false} NoStartKeepsVideo(c: Controller, reqs: seq<Request>)
    requires forall i :: 0 <= i < |reqs| ==> reqs[i] != Start
    ensures Run(c, reqs).0.videoExists == c.videoExists
    decreases |reqs|
  {
    if |reqs| > 0 {
      NoStartKeepsVideo(Handle(c, reqs[0]).0, reqs[1..]);
    }
  }

  /** After a start from any consistent state, a download serves the video. */
  lemma DownloadAfterStart(c: Controller)
    requires Consistent(c)
    ensures DownloadVideo(StartRecording(c).0) == Attachment(VideoPath)
  {
  }
}

=== FILE: rounding.dfy ===
/**
 Rounding as Python applies it to the readings: `round(x, 2)` and the `:.1f` format both
 round to the nearest step, ties to even. Here they act on exact reals.
 */
module Rounding {
  import opened Text

  /** The integer nearest to `x`, ties going to the even neighbour. */
  function RoundHalfEven(x: real): (n: int)
    ensures x - 0.5 <= n as real <= x + 0.5
    ensures (n as real - x == 0.5 || x - n as real == 0.5) ==> n % 2 == 0
  {
    var k := x.Floor;
    var f := x - k as real;
    if f < 0.5 then k
    else if 0.5 < f then k + 1
    else if k % 2 == 0 then k
    else k + 1
  }

  lemma RoundHalfEvenMonotone(x: real, y: real)
    requires x <= y
    ensures RoundHalfEven(x) <= RoundHalfEven(y)
  {
    var kx, ky := x.Floor, y.Floor;
    if kx < ky {
      assert RoundHalfEven(x) <= kx + 1 <= ky <= RoundHalfEven(y);
    }
  }

  lemma RoundHalfEvenOfInteger(n: int)
    ensures RoundHalfEven(n as real) == n
  {
  }

  /** Python's `round(x, 2)`: the nearest hundredth, ties to even. */
  function Round2(x: real): (r: real)
    ensures x - 0.005 <= r <= x + 0.005
  {
    RoundHalfEven(x * 100.0) as real / 100.0
  }

  lemma Round2Monotone(x: real, y: real)
    requires x <= y
    ensures Round2(x) <= Round2(y)
  {
    RoundHalfEvenMonotone(x * 100.0, y * 100.0);
  }

  /** Rounding keeps the sign of a non-negative value. */
  lemma Round2NonNegative(x: real)
    ensures x >= 0.0 ==> Round2(x) >= 0.0
  {
    if x >= 0.0 {
      RoundHalfEvenMonotone(0.0, x * 100.0);
      RoundHalfEvenOfInteger(0);
    }
  }

  /** A value that is already a whole number of hundredths is left as it is. */
  lemma Round2OfHundredths(k: int)
    ensures Round2(k as real / 100.0) == k as real / 100.0
  {
    assert k as real / 100.0 * 100.0 == k as real;
    RoundHalfEvenOfInteger(k);
  }

  /** Rounding never leaves an interval whose ends are whole hundredths. */
  lemma Round2Within(x: real, lo: int, hi: int)
    requires lo as real / 100.0 <= x <= hi as real / 100.0
    ensures lo as real / 100.0 <= Round2(x) <= hi as real / 100.0
  {
    Round2Monotone(lo as real / 100.0, x);
    Round2Monotone(x, hi as real / 100.0);
    Round2OfHundredths(lo);
    Round2OfHundredths(hi);
  }

  /**
   The text of `f"{x:.1f}"`: a minus sign when `x` is negative, the whole part, a point and
   one digit, together naming the nearest tenth (ties to even).
   */
  function FormatOneDecimal(x: real): (r: string)
    ensures |r| >= 3 && r[|r| - 2] == '.' && IsDigit(r[|r| - 1])
    ensures r[0] == '-' <==> x < 0.0
    ensures r[0] == '-' || IsDigit(r[0])
  {
    var n := RoundHalfEven(x * 10.0);
    var a: nat := if n < 0 then -n else n;
    var whole := DecimalText(a / 10);
    (if x < 0.0 then "-" else "") + whole + "." + [DigitChar(a % 10)]
  }

  /** The tenths a formatted text denotes, read back from its digits and sign. */
  function TenthsOf(r: string): int
    requires |r| >= 3 && r[|r| - 2] == '.' && IsDigit(r[|r| - 1])
    requires r[0] == '-' ==> |r| >= 4
    requires AllDigits(if r[0] == '-' then r[1..|r| - 2] else r[..|r| - 2])
  {
    var magnitude :=
      if r[0] == '-' then DigitsValue(r[1..|r| - 2]) * 10 + DigitValue(r[|r| - 1])
      else DigitsValue(r[..|r| - 2]) * 10 + DigitValue(r[|r| - 1]);
    if r[0] == '-' then -magnitude else magnitude
  }

  /** The formatted text reads back as the tenths nearest to `x`. */
  lemma FormatOneDecimalRoundTrip(x: real)
    ensures var r := FormatOneDecimal(x);
      && (r[0] == '-' ==> |r| >= 4)
      && AllDigits(if r[0] == '-' then r[1..|r| - 2] else r[..|r| - 2])
      && TenthsOf(r) == RoundHalfEven(x * 10.0)
  {
    var n := RoundHalfEven(x * 10.0);
    var a: nat := if n < 0 then -n else n;
    var whole := DecimalText(a / 10);
    var r := FormatOneDecimal(x);
    DecimalTextRoundTrip(a / 10);
    if x < 0.0 {
      assert r == "-" + whole + "." + [DigitChar(a % 10)];
      assert r[1..|r| - 2] == whole;
      assert n <= 0;
    } else {
      assert r == whole + "." + [DigitChar(a % 10)];
      assert r[..|r| - 2] == whole;
      assert n >= 0;
    }
  }
}

=== FILE: sensors.dfy ===
/**
 The sensor arithmetic of the annotation script: ADS1115 counts to volts, battery volts to a
 charge percentage, and pressure-sensor volts to psi and then to depth in seawater.
 Physical quantities are exact reals; Python's `round(x, 2)` is `Rounding.Round2`.
 */
module Sensors {
  import opened Rounding

  // Configuration of the rig.
  const VoltageRef: real := 4.096        // ADS1115 full scale at gain 1
  const AdcFullCount: real := 32767.0    // largest positive ADS1115 count
  const DividerBattery: real := 2.0
  const DividerPressure: real := 2.0
  const PressureVMin: real := 0.5        // sensor volts at 0 psi
  const PressureVMax: real := 4.5        // sensor volts at full range
  const PressurePsiRange: real := 1000.0
  const PsiToPascal: real := 6894.76
  const Gravity: real := 9.80665
  const SalinityPsu: real := 35.0
  const BatteryVMin: real := 3.0         // 0 % charge
  const BatteryVMax: real := 4.2         // 100 % charge

  /** Seawater density in kg/m3 for a salinity in PSU. */
  function SeawaterDensity(salinity: real): (rho: real)
    ensures salinity >= 0.0 ==> rho >= 1000.0
    ensures salinity == 0.0 ==> rho == 1000.0
  {
    1000.0 + 0.77 * salinity
  }

  /** Saltier water is denser: the density grows strictly with salinity. */
  lemma SeawaterDensityIncreasing(s1: real, s2: real)
    requires s1 < s2
    ensures SeawaterDensity(s1) < SeawaterDensity(s2)
  {
  }

  /** At the configured 35 PSU the density is exactly 1026.95 kg/m3. */
  lemma ConfiguredDensity()
    ensures SeawaterDensity(SalinityPsu) == 1026.95
  {
  }

  /** The volts an ADS1115 count stands for at gain 1. */
  function AdcVolts(raw: int): (v: real)
    ensures raw == 0 ==> v == 0.0
    ensures raw == 32767 ==> v == VoltageRef
    ensures v > 0.0 <==> raw > 0
    ensures v < 0.0 <==> raw < 0
  {
    raw as real * (VoltageRef / AdcFullCount)
  }

  /** A larger count never reads as fewer volts. */
  lemma AdcVoltsMonotone(a: int, b: int)
    requires a <= b
    ensures AdcVolts(a) <= AdcVolts(b)
    ensures a < b ==> AdcVolts(a) < AdcVolts(b)
  {
  }

  /** The scaling loses nothing: the count is recovered from the volts. */
  lemma AdcVoltsInverse(raw: int)
    ensures AdcVolts(raw) * AdcFullCount / VoltageRef == raw as real
  {
  }

  /** `get_battery_voltage`: the battery volts behind the divider, rounded to hundredths. */
  function BatteryVoltage(raw: int): (v: real)
    ensures -0.005 <= v - AdcVolts(raw) * DividerBattery <= 0.005
    ensures raw >= 0 ==> v >= 0.0
  {
    Round2NonNegative(AdcVolts(raw) * DividerBattery);
    Round2(AdcVolts(raw) * DividerBattery)
  }

  lemma BatteryVoltageMonotone(a: int, b: int)
    requires a <= b
    ensures BatteryVoltage(a) <= BatteryVoltage(b)
  {
    AdcVoltsMonotone(a, b);
    Round2Monotone(AdcVolts(a) * DividerBattery, AdcVolts(b) * DividerBattery);
  }

  /** The charge percentage on the linear scale between the empty and full voltages. */
  function LinearPercent(voltage: real): (p: real)
    ensures voltage == BatteryVMin ==> p == 0.0
    ensures voltage == BatteryVMax ==> p == 100.0
    ensures p < 0.0 <==> voltage < BatteryVMin
    ensures p > 100.0 <==> voltage > BatteryVMax
  {
    (voltage - BatteryVMin) / (BatteryVMax - BatteryVMin) * 100.0
  }

  /** `max(0, min(100, percent))`: a percentage pulled into [0, 100]. */
  function ClampPercent(percent: real): (c: real)
    ensures 0.0 <= c <= 100.0
    ensures 0.0 <= percent <= 100.0 ==> c == percent
    ensures percent < 0.0 ==> c == 0.0
    ensures percent > 100.0 ==> c == 100.0
  {
    if percent > 100.0 then 100.0 else if percent < 0.0 then 0.0 else percent
  }

  /** `get_battery_percentage`: the linear scale clamped to [0, 100], rounded to hundredths. */
  function BatteryPercentage(voltage: real): (p: real)
    ensures 0.0 <= p <= 100.0
    ensures voltage <= BatteryVMin ==> p == 0.0
    ensures voltage >= BatteryVMax ==> p == 100.0
    ensures BatteryVMin <= voltage <= BatteryVMax ==> -0.005 <= p - LinearPercent(voltage) <= 0.005
  {
    var clamped := ClampPercent(LinearPercent(voltage));
    Round2Within(clamped, 0, 10000);
    Round2OfHundredths(0);
    Round2OfHundredths(10000);
    Round2(clamped)
  }

  /** More volts never means less charge. */
  lemma BatteryPercentageMonotone(v1: real, v2: real)
    requires v1 <= v2
    ensures BatteryPercentage(v1) <= BatteryPercentage(v2)
  {
    Round2Monotone(ClampPercent(LinearPercent(v1)), ClampPercent(LinearPercent(v2)));
  }

  /** The voltage at which the linear scale reads a given percentage. */
  function VoltageAtPercent(percent: real): real {
    BatteryVMin + percent * (BatteryVMax - BatteryVMin) / 100.0
  }

  /** Inside [0, 100] the percentage scale and its voltage are inverse to each other. */
  lemma BatteryPercentageInverse(percent: real)
    requires 0.0 <= percent <= 100.0
    ensures LinearPercent(VoltageAtPercent(percent)) == percent
    ensures BatteryPercentage(VoltageAtPercent(percent)) == Round2(percent)
  {
  }

  /** The sensor voltage pulled into the sensor's rated span. */
  function ClampSensorVolts(v: real): (c: real)
    ensures PressureVMin <= c <= PressureVMax
    ensures PressureVMin <= v <= PressureVMax ==> c == v
    ensures v < PressureVMin ==> c == PressureVMin
    ensures v > PressureVMax ==> c == PressureVMax
  {
    if v < PressureVMin then PressureVMin else if v > PressureVMax then PressureVMax else v
  }

  /** Pressure in psi read from the sensor voltage. */
  function PsiFromSensorVolts(v: real): (psi: real)
    ensures 0.0 <= psi <= PressurePsiRange
    ensures psi == 0.0 <==> v <= PressureVMin
    ensures psi == PressurePsiRange <==> v >= PressureVMax
  {
    (ClampSensorVolts(v) - PressureVMin) / (PressureVMax - PressureVMin) * PressurePsiRange
  }

  lemma PsiMonotone(v1: real, v2: real)
    requires v1 <= v2
    ensures PsiFromSensorVolts(v1) <= PsiFromSensorVolts(v2)
  {
  }

  /** The sensor voltage that reads a given pressure. */
  function SensorVoltsAtPsi(psi: real): real {
    PressureVMin + psi * (PressureVMax - PressureVMin) / PressurePsiRange
  }

  /** Inside the rated span, psi and sensor volts determine each other. */
  lemma PsiInverse(psi: real, v: real)
    ensures 0.0 <= psi <= PressurePsiRange ==> PsiFromSensorVolts(SensorVoltsAtPsi(psi)) == psi
    ensures PressureVMin <= v <= PressureVMax ==> SensorVoltsAtPsi(PsiFromSensorVolts(v)) == v
  {
  }

  /** Depth in metres under a gauge pressure in psi, in seawater of the configured salinity. */
  function DepthFromPsi(psi: real): (depth: real)
    ensures psi >= 0.0 ==> depth >= 0.0
    ensures depth == 0.0 <==> psi == 0.0
  {
    ConfiguredDensity();
    psi * PsiToPascal / (SeawaterDensity(SalinityPsu) * Gravity)
  }

  lemma DepthMonotone(psi1: real, psi2: real)
    requires psi1 <= psi2
    ensures DepthFromPsi(psi1) <= DepthFromPsi(psi2)
  {
    ConfiguredDensity();
  }

  /** The hydrostatic relation run backwards: the psi that a depth stands for. */
  function PsiAtDepth(depth: real): real {
    depth * (SeawaterDensity(SalinityPsu) * Gravity) / PsiToPascal
  }

  lemma DepthInverse(psi: real)
    ensures PsiAtDepth(DepthFromPsi(psi)) == psi
  {
    ConfiguredDensity();
  }

  /** The full rated range of 1000 psi is a little under 684.62 m of seawater. */
  lemma DepthAtFullRange()
    ensures 684.61 <= DepthFromPsi(PressurePsiRange) <= 684.62
  {
    ConfiguredDensity();
  }

  /** The rounded pair `get_pressure_and_depth` returns. */
  datatype PressureReading = PressureReading(psi: real, depthM: real)

  /** The pressure-sensor voltage behind its divider for an ADS1115 count. */
  function PressureSensorVolts(raw: int): (v: real)
    ensures raw == 0 ==> v == 0.0
    ensures raw == 32767 ==> v == VoltageRef * DividerPressure
    ensures v >= 0.0 <==> raw >= 0
  {
    AdcVolts(raw) * DividerPressure
  }

  /** `get_pressure_and_depth` for a count read from the pressure channel. */
  function PressureAndDepth(raw: int): (r: PressureReading)
    ensures 0.0 <= r.psi <= PressurePsiRange
    ensures 0.0 <= r.depthM <= 684.62
    ensures PressureSensorVolts(raw) <= PressureVMin ==> r.psi == 0.0 && r.depthM == 0.0
    ensures PressureSensorVolts(raw) >= PressureVMax ==> r.psi == PressurePsiRange
    ensures -0.005 <= r.psi - PsiFromSensorVolts(PressureSensorVolts(raw)) <= 0.005
    ensures -0.005 <= r.depthM - DepthFromPsi(PsiFromSensorVolts(PressureSensorVolts(raw))) <= 0.005
  {
    var psi := PsiFromSensorVolts(PressureSensorVolts(raw));
    var depth := DepthFromPsi(psi);
    Round2Within(psi, 0, 100000);
    DepthMonotone(psi, PressurePsiRange);
    DepthAtFullRange();
    Round2Within(depth, 0, 68462);
    Round2OfHundredths(0);
    Round2OfHundredths(100000);
    PressureReading(Round2(psi), Round2(depth))
  }

  /** A larger count never reads as less pressure or a shallower depth. */
  lemma PressureAndDepthMonotone(a: int, b: int)
    requires a <= b
    ensures PressureAndDepth(a).psi <= PressureAndDepth(b).psi
    ensures PressureAndDepth(a).depthM <= PressureAndDepth(b).depthM
  {
    AdcVoltsMonotone(a, b);
    var psiA := PsiFromSensorVolts(PressureSensorVolts(a));
    var psiB := PsiFromSensorVolts(PressureSensorVolts(b));
    PsiMonotone(PressureSensorVolts(a), PressureSensorVolts(b));
    Round2Monotone(psiA, psiB);
    DepthMonotone(psiA, psiB);
    Round2Monotone(DepthFromPsi(psiA), DepthFromPsi(psiB));
  }
}

=== FILE: text.dfy ===
/**
 Text helpers the two temperature parsers rely on: Python's `str.strip()`, the decimal
 integers that `float()` reads from a one-wire sensor line, and their canonical rendering.
 */
module Text {
  import opened Wrappers

  /** The characters for which Python's `str.isspace()` holds; `strip()` removes them. */
  predicate IsSpace(c: char) {
    var n := c as int;
    || (9 <= n <= 13) || (28 <= n <= 32) || n == 0x85 || n == 0xA0 || n == 0x1680
    || (0x2000 <= n <= 0x200A) || n == 0x2028 || n == 0x2029 || n == 0x202F
    || n == 0x205F || n == 0x3000
  }

  predicate AllSpace(s: string) {
    forall i :: 0 <= i < |s| ==> IsSpace(s[i])
  }

  /**
   The information separators U+001C to U+001F. `isspace()` holds for them, but `float()`
   does not skip them: it keeps ASCII characters as they are, turns other whitespace into a
   space, and then skips only space, tab, newline, vertical tab, form feed and return.
   */
  predicate IsSeparator(c: char) {
    28 <= c as int <= 31
  }

  /** The whitespace `float()` skips around a number. */
  predicate IsFloatSpace(c: char) {
    IsSpace(c) && !IsSeparator(c)
  }

  predicate AllFloatSpace(s: string) {
    forall i :: 0 <= i < |s| ==> IsFloatSpace(s[i])
  }

  predicate NoSeparator(s: string) {
    forall i :: 0 <= i < |s| ==> !IsSeparator(s[i])
  }

  /** `s.lstrip()`. Its meaning is stated by `TrimStartSpec`. */
  function TrimStart(s: string): string {
    if |s| > 0 && IsSpace(s[0]) then TrimStart(s[1..]) else s
  }

  /** `s.rstrip()`. Its meaning is stated by `TrimEndSpec`. */
  function TrimEnd(s: string): string {
    if |s| > 0 && IsSpace(s[|s| - 1]) then TrimEnd(s[..|s| - 1]) else s
  }

  /**
   `s.strip()`: the result is no longer than `s` and neither starts nor ends with whitespace.
   `StripSpec` adds that it is empty exactly for all-whitespace text.
   */
  function Strip(s: string): (r: string)
    ensures |r| <= |s|
    ensures |r| > 0 ==> !IsSpace(r[0]) && !IsSpace(r[|r| - 1])
  {
    var t := TrimStart(s);
    TrimStartSpec(s);
    TrimEndSpec(t);
    var w := TrimEnd(t);
    assert |w| > 0 ==> w[0] == t[0];
    w
  }

  /** `lstrip` keeps a suffix, removes only whitespace, and stops at the first non-space. */
  lemma {:induction false} TrimStartSpec(s: string)
    ensures var r := TrimStart(s);
      && |r| <= |s| && r == s[|s| - |r|..]
      && AllSpace(s[..|s| - |r|])
      && (|r| > 0 ==> !IsSpace(r[0]))
  {
    if |s| > 0 && IsSpace(s[0]) {
      var r := TrimStart(s[1..]);
      TrimStartSpec(s[1..]);
      assert s[1..][|s| - 1 - |r|..] == s[|s| - |r|..];
      assert s[..|s| - |r|] == [s[0]] + s[1..][..|s| - 1 - |r|];
    } else {
      assert s[..0] == [];
    }
  }

  /** `rstrip` keeps a prefix, removes only whitespace, and stops at the last non-space. */
  lemma {:induction false} TrimEndSpec(s: string)
    ensures var r := TrimEnd(s);
      && |r| <= |s| && r == s[..|r|]
      && AllSpace(s[|r|..])
      && (|r| > 0 ==> !IsSpace(r[|r| - 1]))
  {
    if |s| > 0 && IsSpace(s[|s| - 1]) {
      var r := TrimEnd(s[..|s| - 1]);
      TrimEndSpec(s[..|s| - 1]);
      assert s[..|s| - 1][..|r|] == s[..|r|];
      assert s[|r|..] == s[..|s| - 1][|r|..] + [s[|s| - 1]];
    } else {
      assert s[|s|..] == [];
    }
  }

  /**
   `strip` leaves text that neither starts nor ends with whitespace, and leaves nothing
   exactly when the input is all whitespace.
   */
  lemma StripSpec(s: string)
    ensures var r := Strip(s);
      && (|r| > 0 ==> !IsSpace(r[0]) && !IsSpace(r[|r| - 1]))
      && (r == [] <==> AllSpace(s))
  {
    var t := TrimStart(s);
    TrimStartSpec(s);
    TrimEndSpec(t);
    var r := TrimEnd(t);
    if |r| > 0 {
      assert r[0] == t[0];
    }
    if AllSpace(s) {
      TrimStartOfSpace(s);
    }
  }

  lemma {:induction false} TrimStartOfSpace(w: string)
    requires AllSpace(w)
    ensures TrimStart(w) == []
  {
    if |w| > 0 {
      assert AllSpace(w[1..]) by {
        forall i | 0 <= i < |w| - 1
          ensures IsSpace(w[1..][i])
        {
          assert w[1..][i] == w[i + 1];
        }
      }
      TrimStartOfSpace(w[1..]);
    }
  }

  /** Leading whitespace never reaches past a non-space character. */
  lemma {:induction false} TrimStartConcat(p: string, q: string)
    requires |q| > 0 && !IsSpace(q[0])
    ensures TrimStart(p + q) == TrimStart(p) + q
  {
    if |p| == 0 {
      assert p + q == q;
    } else if IsSpace(p[0]) {
      assert (p + q)[1..] == p[1..] + q;
      TrimStartConcat(p[1..], q);
    } else {
      assert (p + q)[0] == p[0];
    }
  }

  /** Trailing whitespace is dropped whatever precedes it. */
  lemma {:induction false} TrimEndConcat(p: string, w: string)
    requires AllSpace(w)
    ensures TrimEnd(p + w) == TrimEnd(p)
  {
    if |w| > 0 {
      assert (p + w)[..|p + w| - 1] == p + w[..|w| - 1];
      TrimEndConcat(p, w[..|w| - 1]);
    } else {
      assert p + w == p;
    }
  }

  /** Stripping removes exactly the padding around a word that starts and ends with non-space. */
  lemma StripPadded(lead: string, word: string, trail: string)
    requires AllSpace(trail)
    requires |word| > 0 && !IsSpace(word[0]) && !IsSpace(word[|word| - 1])
    ensures Strip(lead + word + trail) == TrimStart(lead) + word
  {
    assert lead + word + trail == lead + (word + trail);
    TrimStartConcat(lead, word + trail);
    assert TrimStart(lead) + (word + trail) == (TrimStart(lead) + word) + trail;
    TrimEndConcat(TrimStart(lead) + word, trail);
  }

  predicate IsDigit(c: char) {
    '0' <= c <= '9'
  }

  predicate AllDigits(s: string) {
    forall i :: 0 <= i < |s| ==> IsDigit(s[i])
  }

  function DigitValue(c: char): (d: nat)
    requires IsDigit(c)
    ensures d < 10
  {
    (c as int) - ('0' as int)
  }

  function DigitChar(d: nat): (c: char)
    requires d < 10
    ensures IsDigit(c) && DigitValue(c) == d
  {
    (('0' as int) + d) as char
  }

  /** The value of a run of decimal digits, most significant first. */
  function DigitsValue(s: string): nat
    requires AllDigits(s)
  {
    if |s| == 0 then 0 else DigitsValue(s[..|s| - 1]) * 10 + DigitValue(s[|s| - 1])
  }

  /** The canonical decimal text of a natural number: no sign, no leading zero. */
  function DecimalText(n: nat): (r: string)
    ensures |r| > 0 && AllDigits(r)
    ensures r[0] == '0' ==> n == 0
  {
    if n < 10 then [DigitChar(n)] else DecimalText(n / 10) + [DigitChar(n % 10)]
  }

  lemma {:induction false} DecimalTextRoundTrip(n: nat)
    ensures DigitsValue(DecimalText(n)) == n
  {
    var s := DecimalText(n);
    if n < 10 {
      assert s[..|s| - 1] == [];
    } else {
      assert s[..|s| - 1] == DecimalText(n / 10);
      DecimalTextRoundTrip(n / 10);
    }
  }

  /** The signed decimal text of an integer, as a one-wire sensor writes millidegrees. */
  function IntegerText(i: int): (r: string)
    ensures |r| > 0 && !IsSpace(r[0]) && !IsSpace(r[|r| - 1])
    ensures forall k :: 0 <= k < |r| ==> r[k] == '-' || IsDigit(r[k])
  {
    if i < 0 then "-" + DecimalText(-i) else DecimalText(i)
  }

  /** The signs `float()` allows in front of the digits: none, plus or minus. */
  predicate IsSign(sign: string) {
    sign == "" || sign == "+" || sign == "-"
  }

  /** The integer a sign and a run of digits denote. */
  function SignedValue(sign: string, digits: string): int
    requires AllDigits(digits)
  {
    var magnitude: int := DigitsValue(digits);
    if sign == "-" then -magnitude else magnitude
  }

  /**
   The integer that `float(s)` denotes when `s`, stripped of whitespace, is an optionally
   signed run of digits; None where `float` would raise ValueError. A separator anywhere in
   `s` is rejected: it is neither a sign nor a digit, and `float` does not skip it. The
   grammar it accepts is stated by `ParseIntegerGrammar` and `ParseIntegerDecomposes`.
   */
  function ParseInteger(s: string): (r: Option<int>)
    ensures AllSpace(s) ==> r.None?
    ensures r.Some? ==> |Strip(s)| > 0 && IsDigit(Strip(s)[|Strip(s)| - 1])
  {
    var t := Strip(s);
    StripSpec(s);
    if !NoSeparator(s) then None
    else if |t| > 0 && AllDigits(t) then Some(DigitsValue(t))
    else if |t| > 1 && (t[0] == '-' || t[0] == '+') && AllDigits(t[1..]) then
      Some(SignedValue(t[..1], t[1..]))
    else None
  }

  /** Whitespace, an optional sign, digits and whitespace: `float()` reads the signed digits. */
  lemma ParseIntegerGrammar(lead: string, sign: string, digits: string, trail: string)
    requires AllFloatSpace(lead) && AllFloatSpace(trail) && IsSign(sign)
    requires |digits| > 0 && AllDigits(digits)
    ensures ParseInteger(lead + sign + digits + trail) == Some(SignedValue(sign, digits))
  {
    var word := sign + digits;
    var s := lead + word + trail;
    assert lead + sign + digits + trail == s;
    forall k | 0 <= k < |word|
      ensures word[k] == '+' || word[k] == '-' || IsDigit(word[k])
    {
      if k >= |sign| {
        assert word[k] == digits[k - |sign|];
      }
    }
    PaddedNoSeparator(lead, word, trail);
    assert word[|word| - 1] == digits[|digits| - 1];
    if sign != "" {
      assert word[0] == sign[0];
    }
    StripPadded(lead, word, trail);
    TrimStartOfSpace(lead);
    assert [] + word == word;
    ParseSignedWord(s, sign, digits);
  }

  /** Text without separators that strips to a sign and digits reads as the signed digits. */
  lemma ParseSignedWord(s: string, sign: string, digits: string)
    requires NoSeparator(s) && IsSign(sign) && |digits| > 0 && AllDigits(digits)
    requires Strip(s) == sign + digits
    ensures ParseInteger(s) == Some(SignedValue(sign, digits))
  {
    var t := Strip(s);
    if sign == "" {
      assert t == digits;
    } else {
      assert t[0] == sign[0] && !IsDigit(t[0]);
      assert t[1..] == digits;
    }
  }

  /** Conversely, every text `float()` accepts is whitespace, a sign, digits and whitespace. */
  lemma ParseIntegerDecomposes(s: string) returns (lead: string, sign: string, digits: string, trail: string)
    requires ParseInteger(s).Some?
    ensures s == lead + sign + digits + trail
    ensures AllFloatSpace(lead) && AllFloatSpace(trail) && IsSign(sign)
    ensures |digits| > 0 && AllDigits(digits)
    ensures ParseInteger(s) == Some(SignedValue(sign, digits))
  {
    var t := Strip(s);
    lead, trail := StripSplit(s);
    forall k | 0 <= k < |lead|
      ensures IsFloatSpace(lead[k])
    {
      assert lead[k] == s[k];
    }
    forall k | 0 <= k < |trail|
      ensures IsFloatSpace(trail[k])
    {
      assert trail[k] == s[|lead| + |t| + k];
    }
    if AllDigits(t) {
      sign := "";
      digits := t;
      assert sign + digits == t;
    } else {
      sign := t[..1];
      digits := t[1..];
      assert sign + digits == t;
    }
  }

  /** `s` is the whitespace `strip` removes in front, the stripped text, then whitespace. */
  lemma StripSplit(s: string) returns (lead: string, trail: string)
    ensures s == lead + Strip(s) + trail
    ensures AllSpace(lead) && AllSpace(trail)
  {
    var start := TrimStart(s);
    TrimStartSpec(s);
    var t := TrimEnd(start);
    TrimEndSpec(start);
    lead := s[..|s| - |start|];
    trail := start[|t|..];
    assert s == lead + start;
    assert start == t + trail;
  }

  /** Whitespace padding, a word of signs and digits, and padding hold no separator. */
  lemma PaddedNoSeparator(lead: string, word: string, trail: string)
    requires AllFloatSpace(lead) && AllFloatSpace(trail)
    requires forall k :: 0 <= k < |word| ==> word[k] == '+' || word[k] == '-' || IsDigit(word[k])
    ensures NoSeparator(lead + word + trail)
  {
    var s := lead + word + trail;
    forall k | 0 <= k < |s|
      ensures !IsSeparator(s[k])
    {
      if k < |lead| {
        assert s[k] == lead[k];
      } else if k < |lead| + |word| {
        assert s[k] == word[k - |lead|];
      } else {
        assert s[k] == trail[k - |lead| - |word|];
      }
    }
  }

  /** U+001C, the file separator. */
  const FileSeparator: char := '\U{1C}'

  /**
   `strip()` and `float()` differ on the separators: a separator in front of a number is
   stripped away, but `float()` rejects the text.
   */
  lemma SeparatorRejected(i: int)
    ensures Strip([FileSeparator] + IntegerText(i)) == IntegerText(i)
    ensures ParseInteger([FileSeparator] + IntegerText(i)) == None
  {
    var text := IntegerText(i);
    var s := [FileSeparator] + text;
    assert AllSpace([FileSeparator]) && AllSpace("");
    assert s == [FileSeparator] + text + "";
    StripPadded([FileSeparator], text, "");
    TrimStartOfSpace([FileSeparator]);
    assert [] + text == text;
    assert IsSeparator(s[0]);
  }

  /** Reading back the rendered text, with any whitespace padding, recovers the integer. */
  lemma ParseIntegerRoundTrip(i: int, lead: string, trail: string)
    requires AllFloatSpace(lead) && AllFloatSpace(trail)
    ensures ParseInteger(lead + IntegerText(i) + trail) == Some(i)
  {
    var text := IntegerText(i);
    PaddedNoSeparator(lead, text, trail);
    StripPadded(lead, text, trail);
    TrimStartOfSpace(lead);
    assert [] + text == text;
    ParseCanonical(lead + text + trail, i);
  }

  lemma ParseCanonical(s: string, i: int)
    requires Strip(s) == IntegerText(i) && NoSeparator(s)
    ensures ParseInteger(s) == Some(i)
  {
    var t := Strip(s);
    if i < 0 {
      assert t[1..] == DecimalText(-i);
      assert !IsDigit(t[0]);
      DecimalTextRoundTrip(-i);
    } else {
      DecimalTextRoundTrip(i);
    }
  }

  /** A non-digit character after the first position of the stripped text makes `float()` fail. */
  lemma ParseIntegerRejects(s: string, k: nat)
    requires 0 < k < |Strip(s)| && !IsDigit(Strip(s)[k])
    ensures ParseInteger(s) == None
  {
    var t := Strip(s);
    assert t[1..][k - 1] == t[k];
  }
}

=== FILE: wrappers.dfy ===
/** Optional values: Python's `None` versus a present value, and `str.find`'s -1 versus an index. */
module Wrappers {

  datatype Option<+T> = None | Some(value: T)

}
